=== FILE: README.md ===
# Practice-test quiz engine, in Dafny

This project models the practice-quiz engine of the exam-preparation app: the
`PracticeTest` component in `components/PracticeTest.tsx` and the records it
uses from `types.ts`. It proves properties of that model. It covers:

- the shipped question bank and its topic list;
- the setup screen: ticking topics, the effect that keeps the question count in range, and the guard on the start button;
- starting a quiz from a shuffled selection;
- answering questions and scoring a finished quiz;
- the per-topic breakdown and percentage of a result, and appending it to the history;
- the dashboard's per-topic performance, folded over the whole history.

The model is functional. Each step of the component is a pure function from
one state to the next, with a contract, and lemmas relate steps to each
other and to independent reference definitions.

Modules, one per file:

- `Types` (`types.dfy`): questions, `{correct, total}` tallies, quiz results, and `Option`. `Option` represents a slot of a JavaScript array that may be a hole.
- `Sequences` (`sequences.dfy`): duplicate-free sequences; `Dedup`, which gives the insertion order of a JavaScript `Set`; permutations.
- `Tally` (`tally.dfy`): adding into a per-topic map, merging two maps, and the order-independent sum of a map.
- `QuestionBank` (`question_bank.dfy`): `allQuestions`, `availableTopics`, and the filter to the selected topics.
- `Setup` (`setup.dfy`): topic toggling, the count-clamp effect, and the start guard.
- `Scoring` (`scoring.dfy`): the breakdown, score, percentage and result built by `saveResult`, and the append to the history.
- `Performance` (`performance.dfy`): the `topicPerformance` fold.
- `Session` (`session.dfy`): the component as a state machine. The quiz is held as bank positions, so "distinct questions" can be stated.
- `Deferred` (`deferred.dfy`): the answer click with its 500 ms callback made explicit.

Where the code differs from the app's documented behaviour, the model follows the code:

- Answering the last question completes the quiz without first advancing the index.
- Starting a quiz with no topic selected is prevented only by the disabled button. `Start` therefore requires the button's guard.
- The shipped bank has four topics (`QuestionBank.AllQuestionsTopics`), not three.
- The shuffle in the code is a comparator sort, which is not uniform. The model accepts any permutation.

## Model

| member | source | states |
|---|---|---|
| Sequences.Dedup | components/PracticeTest.tsx:83 | Spreading a `Set` built from a list lists each element exactly once, and lists exactly the elements of the list. |
| Sequences.DedupSnoc | components/PracticeTest.tsx:83 | Inserting one more element into the `Set` adds it at the end unless it is already there. |
| Sequences.DedupPrefix | components/PracticeTest.tsx:83 | The list from a prefix is a prefix of the list from the whole: elements are listed in order of first occurrence. |
| Sequences.PermutationCovers | components/PracticeTest.tsx:189 | A shuffle that lists each of n positions at most once, all below n, lists every position (pigeonhole). |
| QuestionBank.AvailableTopics | components/PracticeTest.tsx:83 | The topic list has no duplicates, and a topic is on it exactly when some question of the bank has that topic. |
| QuestionBank.AvailableTopicsInOrder | components/PracticeTest.tsx:83 | The topics of the first k questions come first on the list, in the same order. |
| QuestionBank.AllQuestionsTopics | components/PracticeTest.tsx:8-83 | The shipped bank's topic list is General Principles, Minnesota Regulations, Life Insurance, Accident & Health, in that order. |
| QuestionBank.SelectedIndices | components/PracticeTest.tsx:119-121 | The filter keeps exactly the questions whose topic is selected, each once, in bank order. |
| QuestionBank.SelectAllTopics | components/PracticeTest.tsx:119-121 | With every topic of the bank selected, the filter keeps the whole bank in bank order. |
| Setup.RemoveTopic | components/PracticeTest.tsx:155 | Filtering a topic out keeps every other topic, removes that one, changes nothing if it was absent, and keeps the list duplicate-free. |
| Setup.ToggleTopic | components/PracticeTest.tsx:152-158 | A toggle flips the membership of that topic only and keeps the selection duplicate-free. |
| Setup.ToggleTwice | components/PracticeTest.tsx:152-158 | Toggling twice restores every membership. It restores the selection itself when the topic was unticked, because an appended topic is removed again. |
| Setup.ClampCount | components/PracticeTest.tsx:141-150 | Outside setup the count is unchanged. In setup, for n matching questions: a count above n becomes exactly n, an in-range count is kept, and zero becomes min(5, n). The result is at most n, and zero only when none match. |
| Setup.ClampSettles | components/PracticeTest.tsx:141-150 | Re-running the effect on the count it produced changes nothing, so the effect settles after one run. |
| Setup.CanStart | components/PracticeTest.tsx:353 | The start button is enabled exactly when a topic is selected, some question matches, and the count is positive. |
| Setup.CanStartAfterClamp | components/PracticeTest.tsx:353 | After the effect, the start button is enabled exactly when some question matches a non-empty selection. |
| Tally.AddLookup | components/PracticeTest.tsx:128-134 | Adding counts to a topic creates its entry if needed. The topic then holds its old tally, zero when it had none, plus the counts. Every other topic keeps its tally. |
| Tally.AddEntriesIsMerge | components/PracticeTest.tsx:127-135 | Adding one result's entries into the running tally one at a time gives the merge of the two tallies, whatever the order the entries are listed in, provided each topic is listed once. |
| Tally.MergeLookup | components/PracticeTest.tsx:127-135 | For every topic, present or not, the merged tally is the sum of the two tallies, a missing entry counting as zero. |
| Tally.SumAdd | components/PracticeTest.tsx:163-169 | Adding counts to one topic adds them to the sum over all topics. |
| Tally.SumMerge | components/PracticeTest.tsx:127-135 | The sum over all topics of a merge is the sum of the two sums. |
| Tally.SumConsistent | components/PracticeTest.tsx:162-170 | If no topic has more correct answers than questions, neither does the sum. |
| Scoring.TopicHitsAtMostCount | components/PracticeTest.tsx:166-169 | A topic's correct count never exceeds its question count. |
| Scoring.Breakdown | components/PracticeTest.tsx:161-170 | The breakdown's keys are exactly the quiz's topics. Each topic holds its number of questions and of correctly answered ones. No topic has correct > total, and the totals add up to the number of questions. |
| Scoring.Score | components/PracticeTest.tsx:211 | The score is at most the number of answer slots, and equals the sum of the breakdown's correct counts. |
| Scoring.Percentage | components/PracticeTest.tsx:176 | The percentage is 0 for an empty quiz. Otherwise percentage × total = 100 × score, and it lies in [0, 100] when score ≤ total. |
| Scoring.ScoredResultWellFormed | components/PracticeTest.tsx:160-179 | A result built from the score of its own answers is well formed: consistent breakdown, breakdown sum = (score, total), score ≤ total, and the percentage is `Scoring.Percentage` of score and total. |
| Scoring.MakeResult | components/PracticeTest.tsx:160-179 | The new result carries the caller's date, score and mode, and the question count. Its breakdown covers exactly the quiz's topics. Each topic holds its own number of questions and of correct answers, with correct ≤ total. The totals add up to the question count. The percentage is `Scoring.Percentage` of the caller's score. The result is well formed when the score is the answers' score. |
| Scoring.SaveResult | components/PracticeTest.tsx:181-185 | Saving appends exactly one result: length + 1, old prefix unchanged, the new result last. |
| Performance.Aggregate | components/PracticeTest.tsx:124-138 | An empty history aggregates to the empty map. |
| Performance.AggregateKeys | components/PracticeTest.tsx:124-138 | The aggregate lists exactly the topics that some saved result mentions. |
| Performance.AggregateLookup | components/PracticeTest.tsx:124-138 | Each topic's aggregate equals the sum over all results of that topic's entry, with zero where a result lacks it. |
| Performance.AggregateAppend | components/PracticeTest.tsx:124-138 | Aggregating h + [r] is aggregating h, then merging r's breakdown. |
| Performance.AggregateConcat | components/PracticeTest.tsx:124-138 | Per topic, aggregating h1 + h2 is the sum of the two aggregates. |
| Performance.AggregateTotals | components/PracticeTest.tsx:124-138 | Over well-formed results, the aggregate sums to the total score and question count of the history, and no topic has more correct answers than questions. |
| Session.Initial | components/PracticeTest.tsx:86-104 | The mount state is the dashboard with every bank topic selected, five questions, practice mode and the stored history. It satisfies the state invariant. |
| Session.InitialFilterKeepsBank | components/PracticeTest.tsx:89-121 | Under the initial selection, the filter keeps every question of the bank. |
| Session.Settle | components/PracticeTest.tsx:141-150 | The effect changes only the count, and only on the setup screen. There, for n matching questions, a count above n becomes n, an in-range count is kept, and zero becomes min(5, n). |
| Session.OpenSetup | components/PracticeTest.tsx:246 | Opening setup changes only the view and the count. For n questions matching the selection, a count above n becomes n, an in-range count is kept, and zero becomes min(5, n). |
| Session.OpenDashboard | components/PracticeTest.tsx:320 | Going to the dashboard changes only the screen and keeps the invariant. |
| Session.ChangeTopic | components/PracticeTest.tsx:152-158 | A checkbox click flips that topic only. For n questions matching the new selection, a count above n becomes n, an in-range count is kept, and zero becomes min(5, n). Nothing but the selection and count changes. |
| Session.MoveSlider | components/PracticeTest.tsx:338 | A slider value between 1 and the number of matching questions is taken as the count, and the invariant is kept. |
| Session.SetExamMode | components/PracticeTest.tsx:348 | The mode switch changes only the mode. |
| Session.Draw | components/PracticeTest.tsx:189-190 | The quiz takes min(count, n) of the matching questions, each once. |
| Session.DrawAll | components/PracticeTest.tsx:189-190 | Asking for at least n questions draws every matching question. |
| Session.Start | components/PracticeTest.tsx:188-200 | Starting yields count = min(count, n) distinct bank questions, all matching the selection. The index is 0, there are no answers, and review is shown unless in exam mode. Nothing else changes. |
| Session.Store | components/PracticeTest.tsx:203-204 | Writing slot i sets it and leaves every other slot alone. A write past the end grows the array, leaving holes. |
| Session.Answer | components/PracticeTest.tsx:202-216 | The answer, one of the current question's options as the buttons at lines 372-373 offer, is recorded at the current index, and earlier answers are kept. Before the last question the index advances and stays in range, and the history is unchanged. At the last question the index stays put, the results show, and exactly one result is appended. That result is `Scoring.MakeResult` of the recorded answers, scored on them. The invariant holds, including that every written answer is an option of its question. |
| Session.AnswerAppends | components/PracticeTest.tsx:203-205 | During a quiz, each answer is written just after the earlier ones. |
| Session.RunCompletes | components/PracticeTest.tsx:202-216 | Answering every remaining question ends on the results screen with exactly one result appended and the earlier history kept. |
| Session.RunAnswers | components/PracticeTest.tsx:202-216 | Answering the remaining questions appends the choices to the answers and keeps the quiz. |
| Session.QuizCompletes | components/PracticeTest.tsx:188-216 | Starting, then answering every question, saves exactly one well-formed result: its score is that of the choices, its total is the count asked for, and earlier results are kept. |
| Deferred.Click | components/PracticeTest.tsx:202-207 | A click on one of the current question's options records it at once and schedules one callback capturing the current index and answers. Nothing else in the state changes, and every other answer slot keeps its value. |
| Deferred.Fire | components/PracticeTest.tsx:207-215 | A callback acts on the values it captured. Before the last index it advances and keeps the view and history. At the last it leaves the index alone, shows the results and appends one result: `Scoring.MakeResult` of its captured answers, scored on them. It never changes the answers, the quiz, the selection or the mode. |
| Deferred.ClickThenFireIsAnswer | components/PracticeTest.tsx:202-216 | A click whose callback fires before the next click is exactly the one-step `Session.Answer`. |
| Deferred.DoubleClickSavesTwice | components/PracticeTest.tsx:202-216 | As written, two clicks on the last question before the callback fires append two results, the first scored on the first answer while the answers show the second. |
| Deferred.GuardedClick | components/PracticeTest.tsx:202-207 | The corrected click ignores clicks while a callback is pending and otherwise records the answer. |
| Deferred.GuardedClicksAreOneAnswer | components/PracticeTest.tsx:202-216 | With the guard, any burst of clicks on one question followed by the callback equals `Session.Answer` with the first click, so one result per quiz. |

## Left out

- Loading the history from `localStorage` and saving it there, including JSON parsing and the removal of corrupt data (lines 107-117 and 183). This is browser I/O. `Session.Initial` takes the loaded history as an input, and `Scoring.SaveResult` models only the in-memory append.
- `Math.random` in the shuffle (line 189). The shuffle is any permutation `perm` of the matching questions. Its non-uniform bias is not modelled.
- The shuffle also sorts the memoised filter array in place. After a start, that array is a permutation of bank order until the selection changes. A later draw from it with permutation p is a draw from bank order with a composed permutation, so the model always filters in bank order.
- The 500 ms `setTimeout` delay (line 207). `Session.Answer` is a click whose callback fires before the next click. `Deferred` models pending callbacks as an ordered queue without times.
- `Date.now()` (line 173): the timestamp is the input `now`.
- `fetchAnalysis` and its loading state (lines 218-236). These are network calls into an SDK that is not part of this model.
- Rendering, `toFixed`, the 70% colour threshold, the last 15 results on the chart, the "Review Answers" button that shows the detailed review, and the analysis map reset at start. These are display only.
- Session.MoveSlider: requires a value from 1 to the number of matching questions, because the browser's range input produces nothing else. `parseInt` of its value is not modelled.
- Performance.Aggregate: its own contract states only the empty case. The per-topic sums and the key set are stated by `Performance.AggregateLookup` and `Performance.AggregateKeys`.
- JavaScript object quirks of `TopicPerformance` (a topic named like an `Object.prototype` member) and the enumeration order of `Object.entries`. Topics are plain map keys. `Tally.AddEntriesIsMerge` shows that adding the entries in any listing order gives the same tally.
- Counts are unbounded integers and the percentage is an exact real. Floating-point rounding of `(score / n) * 100` is not modelled.

## Findings

| source | as written | input that shows it | evidently intended | confidence | as-written member | corrected member |
|---|---|---|---|---|---|---|
| components/PracticeTest.tsx:202-216 | The option buttons stay active while the 500 ms callback is pending, and each click schedules its own callback. On the last question every callback saves a result. | On the last question of a quiz, click option A, then option B within 500 ms. | One result per completed quiz, scored on the answers shown. | medium, not executed | Deferred.DoubleClickSavesTwice | Deferred.GuardedClicksAreOneAnswer |

=== FILE: deferred.dfy ===
/** `handleAnswerSelect` with its timer made explicit. A click writes the
    answer at once and schedules a callback that fires later with the
    index and answers the click saw. While a callback is pending, the
    option buttons are still on screen (components/PracticeTest.tsx). */
module Deferred {
  import opened Types
  import opened Session
  import opened Scoring

  /** A scheduled callback and the values its closure captured. */
  datatype Timer = Timer(index: nat, answers: seq<Option<string>>)

  /** The component's state together with its pending callbacks, oldest first. */
  datatype Live = Live(s: State, pending: seq<Timer>)

  /** The quiz and every pending callback stay within the quiz's questions. */
  predicate Ready(bank: seq<Question>, l: Live) {
    && (forall j :: 0 <= j < |l.s.picks| ==> l.s.picks[j] < |bank|)
    && (forall k :: 0 <= k < |l.pending| ==>
          l.pending[k].index < |l.s.picks| && |l.pending[k].answers| <= |l.s.picks|)
  }

  /** A click on an option during the quiz, as written: the answer is stored
      and one more callback is scheduled. */
  function Click(bank: seq<Question>, l: Live, answer: string): (l': Live)
    requires Ready(bank, l)
    requires l.s.view == QuizView && l.s.currentIndex < |l.s.picks| && |l.s.userAnswers| <= |l.s.picks|
    requires answer in bank[l.s.picks[l.s.currentIndex]].options
    ensures Ready(bank, l')
    ensures |l'.pending| == |l.pending| + 1 && l'.pending[..|l.pending|] == l.pending
    ensures l'.pending[|l.pending|].index == l.s.currentIndex
    ensures l'.s.userAnswers == l'.pending[|l.pending|].answers
    ensures l.s.currentIndex < |l'.s.userAnswers| && l'.s.userAnswers[l.s.currentIndex] == Some(answer)
    ensures l'.s == l.s.(userAnswers := l'.s.userAnswers) && |l'.s.userAnswers| >= |l.s.userAnswers|
    ensures forall j :: 0 <= j < |l.s.userAnswers| && j != l.s.currentIndex ==>
              l'.s.userAnswers[j] == l.s.userAnswers[j]
  {
    var answers := Store(l.s.userAnswers, l.s.currentIndex, answer);
    Live(l.s.(userAnswers := answers), l.pending + [Timer(l.s.currentIndex, answers)])
  }

  /** The oldest pending callback fires. It acts on the index and answers it
      captured, whatever the screen now shows: before the last question it
      moves to the next one; at the last it scores its answers, saves a
      result dated `now` and shows the results. */
  function Fire(bank: seq<Question>, l: Live, now: int): (l': Live)
    requires Ready(bank, l) && |l.pending| > 0
    ensures Ready(bank, l')
    ensures l'.pending == l.pending[1..]
    ensures l'.s.userAnswers == l.s.userAnswers && l'.s.picks == l.s.picks
    ensures l'.s.selectedTopics == l.s.selectedTopics && l'.s.isExamMode == l.s.isExamMode
    ensures l.pending[0].index < |l.s.picks| - 1 ==> l'.s.view == l.s.view
    ensures l.pending[0].index < |l.s.picks| - 1 ==>
              l'.s.quizHistory == l.s.quizHistory && l'.s.currentIndex == l.pending[0].index + 1
    ensures l.pending[0].index == |l.s.picks| - 1 ==>
              && l'.s.view == ResultsView
              && |l'.s.quizHistory| == |l.s.quizHistory| + 1
              && l'.s.quizHistory[..|l.s.quizHistory|] == l.s.quizHistory
              && l'.s.currentIndex == l.s.currentIndex
              && l'.s.quizHistory[|l.s.quizHistory|]
                 == MakeResult(now, Score(QuizQuestions(bank, l.s), l.pending[0].answers), QuizQuestions(bank, l.s),
                               l.pending[0].answers, l.s.isExamMode)
  {
    var t := l.pending[0];
    if t.index < |l.s.picks| - 1 then
      Live(Settle(bank, l.s.(currentIndex := t.index + 1)), l.pending[1..])
    else
      var qs := QuizQuestions(bank, l.s);
      var score := Score(qs, t.answers);
      Live(Settle(bank, l.s.(view := ResultsView,
                             quizHistory := SaveResult(l.s.quizHistory, now, score, qs, t.answers, l.s.isExamMode))),
           l.pending[1..])
  }

  /** A single click whose callback fires before the next click is exactly
      the one-step `Answer` of the session. */
  lemma ClickThenFireIsAnswer(bank: seq<Question>, s: State, answer: string, now: int)
    requires Valid(bank, s) && s.view == QuizView
    requires answer in bank[s.picks[s.currentIndex]].options
    ensures Ready(bank, Live(s, []))
    ensures Fire(bank, Click(bank, Live(s, []), answer), now) == Live(Answer(bank, s, answer, now), [])
  {
    var c := Click(bank, Live(s, []), answer);
    assert c.pending == [Timer(s.currentIndex, c.s.userAnswers)];
  }

  /** As written, a second click on the last question before the first
      callback fires saves two results for one quiz, the first scored with
      the first answer although the review shows the second. */
  lemma DoubleClickSavesTwice(bank: seq<Question>, s: State, first: string, second: string, now: int)
    requires Valid(bank, s) && s.view == QuizView && s.currentIndex == |s.picks| - 1
    requires first in bank[s.picks[s.currentIndex]].options && second in bank[s.picks[s.currentIndex]].options
    ensures Ready(bank, Live(s, []))
    ensures var l := Fire(bank, Fire(bank, Click(bank, Click(bank, Live(s, []), first), second), now), now);
            && |l.s.quizHistory| == |s.quizHistory| + 2
            && l.s.quizHistory[|s.quizHistory|].score
               == Score(QuizQuestions(bank, s), s.userAnswers + [Some(first)])
            && l.s.userAnswers == s.userAnswers + [Some(second)]
  {
    var c1 := Click(bank, Live(s, []), first);
    assert c1.s.userAnswers == s.userAnswers + [Some(first)];
    var c2 := Click(bank, c1, second);
    assert c2.s.userAnswers == s.userAnswers + [Some(second)];
    var f1 := Fire(bank, c2, now);
    assert f1.pending == c2.pending[1..];
    var f2 := Fire(bank, f1, now);
  }

  /** The corrected click: while a callback is pending the buttons do nothing. */
  function GuardedClick(bank: seq<Question>, l: Live, answer: string): (l': Live)
    requires Ready(bank, l)
    requires l.s.view == QuizView && l.s.currentIndex < |l.s.picks| && |l.s.userAnswers| <= |l.s.picks|
    requires answer in bank[l.s.picks[l.s.currentIndex]].options
    ensures Ready(bank, l')
    ensures l'.s == l.s.(userAnswers := l'.s.userAnswers) && |l'.s.userAnswers| <= |l.s.picks|
    ensures |l.pending| > 0 ==> l' == l
    ensures |l.pending| == 0 ==> |l'.pending| == 1 && l.s.currentIndex < |l'.s.userAnswers|
                                 && l'.s.userAnswers[l.s.currentIndex] == Some(answer)
  {
    if |l.pending| > 0 then l else Click(bank, l, answer)
  }

  /** With the guard, any number of clicks on one question before its
      callback fires act as the first click alone, so each quiz saves one
      result. */
  lemma {:induction false} GuardedClicksAreOneAnswer(bank: seq<Question>, s: State, clicks: seq<string>, now: int)
    requires Valid(bank, s) && s.view == QuizView && |clicks| > 0
    requires forall k :: 0 <= k < |clicks| ==> clicks[k] in bank[s.picks[s.currentIndex]].options
    ensures Ready(bank, Live(s, []))
    ensures var l := GuardedClicks(bank, GuardedClick(bank, Live(s, []), clicks[0]), clicks[1..]);
            && |l.pending| == 1
            && Fire(bank, l, now) == Live(Answer(bank, s, clicks[0], now), [])
  {
    var first := GuardedClick(bank, Live(s, []), clicks[0]);
    GuardedClicksPending(bank, first, clicks[1..]);
    ClickThenFireIsAnswer(bank, s, clicks[0], now);
  }

  /** Several guarded clicks in a row. */
  function GuardedClicks(bank: seq<Question>, l: Live, clicks: seq<string>): (l': Live)
    requires Ready(bank, l)
    requires l.s.view == QuizView && l.s.currentIndex < |l.s.picks| && |l.s.userAnswers| <= |l.s.picks|
    requires forall k :: 0 <= k < |clicks| ==> clicks[k] in bank[l.s.picks[l.s.currentIndex]].options
    ensures Ready(bank, l')
    decreases |clicks|
  {
    if |clicks| == 0 then l
    else
      GuardedClicks(bank, GuardedClick(bank, l, clicks[0]), clicks[1..])
  }

  /** Clicks made while a callback is pending leave the state alone. */
  lemma {:induction false} GuardedClicksPending(bank: seq<Question>, l: Live, clicks: seq<string>)
    requires Ready(bank, l)
    requires l.s.view == QuizView && l.s.currentIndex < |l.s.picks| && |l.s.userAnswers| <= |l.s.picks|
    requires |l.pending| > 0
    requires forall k :: 0 <= k < |clicks| ==> clicks[k] in bank[l.s.picks[l.s.currentIndex]].options
    ensures GuardedClicks(bank, l, clicks) == l
    decreases |clicks|
  {
    if |clicks| > 0 {
      GuardedClicksPending(bank, l, clicks[1..]);
    }
  }
}

=== FILE: performance.dfy ===
/** The dashboard's per-topic performance: the tallies of every saved
    result, added up topic by topic (`topicPerformance` in
    components/PracticeTest.tsx). */
module Performance {
  import opened Types
  import opened Sequences
  import opened Tally
  import opened Scoring

  /** The history folded from the oldest result on: each result's breakdown
      is added, entry by entry, into the running tally. */
  function Aggregate(h: seq<QuizResult>): (perf: TopicPerformance)
    ensures |h| == 0 ==> perf == map[]
    decreases |h|
  {
    if |h| == 0 then map[]
    else Merge(Aggregate(h[..|h| - 1]), h[|h| - 1].topicBreakdown)
  }

  /** The aggregate lists exactly the topics some saved result mentions. */
  lemma {:induction false} AggregateKeys(h: seq<QuizResult>)
    ensures forall t :: t in Aggregate(h) <==> exists i :: 0 <= i < |h| && t in h[i].topicBreakdown
    decreases |h|
  {
    if |h| > 0 {
      var init := h[..|h| - 1];
      AggregateKeys(init);
      var perf := Aggregate(h);
      assert perf.Keys == Aggregate(init).Keys + h[|h| - 1].topicBreakdown.Keys;
      forall t | t in perf
        ensures exists i :: 0 <= i < |h| && t in h[i].topicBreakdown
      {
        if t !in h[|h| - 1].topicBreakdown {
          var i :| 0 <= i < |init| && t in init[i].topicBreakdown;
          assert h[i] == init[i];
        }
      }
      forall t, i | 0 <= i < |h| && t in h[i].topicBreakdown
        ensures t in perf
      {
        if i < |h| - 1 {
          assert init[i] == h[i];
        }
      }
    }
  }

  /** Reference sum: the tallies of topic `t` over the results of `h`, a
      result without an entry for `t` adding nothing. */
  function TopicTotal(h: seq<QuizResult>, t: Topic): Counts
    decreases |h|
  {
    if |h| == 0 then Counts(0, 0) else Plus(Lookup(h[0].topicBreakdown, t), TopicTotal(h[1..], t))
  }

  /** The reference sum over two histories is the sum of their reference sums. */
  lemma {:induction false} TopicTotalConcat(h1: seq<QuizResult>, h2: seq<QuizResult>, t: Topic)
    ensures TopicTotal(h1 + h2, t) == Plus(TopicTotal(h1, t), TopicTotal(h2, t))
    decreases |h1|
  {
    if |h1| > 0 {
      assert (h1 + h2)[1..] == h1[1..] + h2;
      TopicTotalConcat(h1[1..], h2, t);
    } else {
      assert h1 + h2 == h2;
    }
  }

  /** One step of the fold adds the last result's entry to the reference sum. */
  lemma AggregateLookupStep(h: seq<QuizResult>, t: Topic)
    requires |h| > 0
    requires Lookup(Aggregate(h[..|h| - 1]), t) == TopicTotal(h[..|h| - 1], t)
    ensures Lookup(Aggregate(h), t) == TopicTotal(h, t)
  {
    var init := h[..|h| - 1];
    var last := h[|h| - 1];
    SplitLast(h);
    calc {
      Lookup(Aggregate(h), t);
      Lookup(Merge(Aggregate(init), last.topicBreakdown), t);
      { MergeLookup(Aggregate(init), last.topicBreakdown, t); }
      Plus(Lookup(Aggregate(init), t), Lookup(last.topicBreakdown, t));
      { assert [last][1..] == []; }
      Plus(TopicTotal(init, t), TopicTotal([last], t));
      { TopicTotalConcat(init, [last], t); }
      TopicTotal(h, t);
    }
  }

  /** Every topic's aggregate is the sum over all results of that topic's
      entry, with zero for results that do not mention it. */
  lemma {:induction false} AggregateLookup(h: seq<QuizResult>, t: Topic)
    ensures Lookup(Aggregate(h), t) == TopicTotal(h, t)
    decreases |h|
  {
    if |h| > 0 {
      AggregateLookup(h[..|h| - 1], t);
      AggregateLookupStep(h, t);
    }
  }

  /** Saving one more result adds its breakdown to the aggregate. */
  lemma AggregateAppend(h: seq<QuizResult>, r: QuizResult)
    ensures Aggregate(h + [r]) == Merge(Aggregate(h), r.topicBreakdown)
  {
    assert (h + [r])[..|h|] == h;
  }

  /** The aggregate of two histories, topic by topic, is the sum of their
      aggregates: the fold does not depend on how the history is split. */
  lemma AggregateConcat(h1: seq<QuizResult>, h2: seq<QuizResult>, t: Topic)
    ensures Lookup(Aggregate(h1 + h2), t) == Plus(Lookup(Aggregate(h1), t), Lookup(Aggregate(h2), t))
  {
    AggregateLookup(h1 + h2, t);
    AggregateLookup(h1, t);
    AggregateLookup(h2, t);
    TopicTotalConcat(h1, h2, t);
  }

  /** Reference sum: the scores and question counts of all results. */
  function HistoryTotals(h: seq<QuizResult>): Counts
    decreases |h|
  {
    if |h| == 0 then Counts(0, 0)
    else Plus(HistoryTotals(h[..|h| - 1]), Counts(h[|h| - 1].score, h[|h| - 1].totalQuestions))
  }

  /** Over a history of well-formed results, the aggregate tallies add up to
      the total score and the total number of questions answered, and no
      topic has more correct answers than questions. */
  lemma {:induction false} AggregateTotals(h: seq<QuizResult>)
    requires forall i :: 0 <= i < |h| ==> WellFormed(h[i])
    ensures Sum(Aggregate(h)) == HistoryTotals(h)
    ensures Consistent(Aggregate(h))
    decreases |h|
  {
    if |h| > 0 {
      var init := h[..|h| - 1];
      var last := h[|h| - 1];
      AggregateTotals(init);
      SumMerge(Aggregate(init), last.topicBreakdown);
      assert WellFormed(last);
      var perf := Aggregate(h);
      forall t | t in perf
        ensures perf[t].correct <= perf[t].total
      {
        MergeLookup(Aggregate(init), last.topicBreakdown, t);
        assert perf[t] == Lookup(perf, t);
        assert Lookup(Aggregate(init), t).correct <= Lookup(Aggregate(init), t).total;
        assert Lookup(last.topicBreakdown, t).correct <= Lookup(last.topicBreakdown, t).total;
      }
    }
  }
}

=== FILE: question_bank.dfy ===
/** The static question bank of the practice test, its distinct topic list
    and the filter to the selected topics (components/PracticeTest.tsx). */
module QuestionBank {
  import opened Types
  import opened Sequences

  /** The topics of the shipped questions. */
  const GeneralPrinciples: Topic := "General Principles"
  const MinnesotaRegulations: Topic := "Minnesota Regulations"
  const LifeInsurance: Topic := "Life Insurance"
  const AccidentAndHealth: Topic := "Accident & Health"

  /** `allQuestions`: the six questions shipped with the practice test. */
  const AllQuestions: seq<Question> := [
    Question(
      "Under the Fair Credit Reporting Act, if a consumer challenges the accuracy of information in their report, the reporting agency must:",
      ["Respond to the consumer's complaint within 5 business days.",
       "Remove the disputed information immediately.",
       "Investigate and rectify any errors within a reasonable period.",
       "Charge a fee to investigate the dispute."],
      "Investigate and rectify any errors within a reasonable period.",
      "The FCRA requires consumer reporting agencies to investigate disputes and correct or delete inaccurate, incomplete, or unverifiable information, usually within 30 days.",
      GeneralPrinciples),
    Question(
      "In Minnesota, how many hours of Continuing Education (CE) must a producer complete every renewal period?",
      ["15 hours, with 2 in ethics",
       "24 hours, with 3 in ethics",
       "30 hours, with 4 in ethics",
       "12 hours, with 1 in ethics"],
      "24 hours, with 3 in ethics",
      "Minnesota law requires licensed producers to complete 24 hours of CE, including 3 hours dedicated to ethics, every two-year license renewal period.",
      MinnesotaRegulations),
    Question(
      "Which of the following life insurance policies allows the policyowner to flexibly change both the premium payments and the death benefit?",
      ["Whole Life", "Term Life", "Variable Life", "Universal Life"],
      "Universal Life",
      "Universal Life insurance is characterized by its flexibility. Policyowners can adjust their premium payments and death benefit amounts to suit their changing financial needs.",
      LifeInsurance),
    Question(
      "A Medicare Supplement (Medigap) policy is designed to:",
      ["Replace Medicare Part A and B.",
       "Provide long-term care coverage.",
       "Cover the cost of prescription drugs (Part D).",
       "Fill in the gaps in coverage from Original Medicare."],
      "Fill in the gaps in coverage from Original Medicare.",
      "Medigap policies are sold by private companies to help pay for some of the out-of-pocket costs that Original Medicare (Part A and Part B) doesn't cover, like deductibles, copayments, and coinsurance.",
      AccidentAndHealth),
    Question(
      "A producer in Minnesota must notify the Commissioner of Commerce of a change in their residential address within how many days?",
      ["10 days", "30 days", "60 days", "Immediately"],
      "10 days",
      "Minnesota statutes require licensed insurance producers to report a change of address to the Commissioner within 10 days of the change.",
      MinnesotaRegulations),
    Question(
      "Which provision prevents an insurer from denying a claim after the policy has been in force for a certain period, typically two years?",
      ["Entire Contract Clause", "Grace Period", "Incontestability Clause", "Reinstatement Provision"],
      "Incontestability Clause",
      "The Incontestability Clause states that after a policy has been in force for a set period (usually two years), the insurer cannot contest the validity of the policy or deny a claim based on misstatements in the application, except for non-payment of premiums.",
      LifeInsurance)
  ]

  /** The topic of each question, in bank order. */
  function TopicsOf(bank: seq<Question>): (ts: seq<Topic>)
    ensures |ts| == |bank|
    ensures forall i :: 0 <= i < |bank| ==> ts[i] == bank[i].topic
  {
    seq(|bank|, i requires 0 <= i < |bank| => bank[i].topic)
  }

  /** `availableTopics`: every topic of the bank exactly once, in order of
      first occurrence. */
  function AvailableTopics(bank: seq<Question>): (ts: seq<Topic>)
    ensures NoDup(ts)
    ensures forall t :: t in ts <==> exists i :: 0 <= i < |bank| && bank[i].topic == t
  {
    var all := TopicsOf(bank);
    assert forall t :: t in all <==> exists i :: 0 <= i < |bank| && bank[i].topic == t by {
      forall t | t in all
        ensures exists i :: 0 <= i < |bank| && bank[i].topic == t
      {
        var i :| 0 <= i < |all| && all[i] == t;
        assert bank[i].topic == t;
      }
    }
    Dedup(all)
  }

  /** The topics of the first `k` questions are listed first, in the same
      order: the topic list is ordered by first occurrence in the bank. */
  lemma AvailableTopicsInOrder(bank: seq<Question>, k: nat)
    requires k <= |bank|
    ensures AvailableTopics(bank[..k]) <= AvailableTopics(bank)
  {
    DedupPrefix(TopicsOf(bank), k);
    assert TopicsOf(bank[..k]) == TopicsOf(bank)[..k];
  }

  /** The topics of the shipped bank, question by question. */
  lemma AllQuestionsTopicsOf()
    ensures TopicsOf(AllQuestions)
         == [GeneralPrinciples, MinnesotaRegulations, LifeInsurance, AccidentAndHealth,
             MinnesotaRegulations, LifeInsurance]
  {
  }

  /** A list already free of repeats stays its own topic list when a new
      topic is appended. */
  lemma DedupExtend(s: seq<Topic>, x: Topic)
    requires Dedup(s) == s && x !in s
    ensures Dedup(s + [x]) == s + [x]
  {
    DedupSnoc(s, x);
  }

  /** Four distinct topics are their own topic list. */
  lemma DedupDistinctFour(gp: Topic, mn: Topic, li: Topic, ah: Topic)
    requires gp != mn && gp != li && gp != ah && mn != li && mn != ah && li != ah
    ensures Dedup([gp, mn, li, ah]) == [gp, mn, li, ah]
  {
    var s1 := [gp];
    assert Dedup(s1) == s1 by {
      DedupExtend([], gp);
      assert [] + [gp] == s1;
    }
    var s2 := s1 + [mn];
    assert Dedup(s2) == s2 by {
      DedupExtend(s1, mn);
    }
    var s3 := s2 + [li];
    assert Dedup(s3) == s3 by {
      DedupExtend(s2, li);
    }
    DedupExtend(s3, ah);
    assert s3 + [ah] == [gp, mn, li, ah];
  }

  /** Topics already listed add nothing to the topic list. */
  lemma DedupBankTopics(gp: Topic, mn: Topic, li: Topic, ah: Topic)
    requires gp != mn && gp != li && gp != ah && mn != li && mn != ah && li != ah
    ensures Dedup([gp, mn, li, ah, mn, li]) == [gp, mn, li, ah]
  {
    var four := [gp, mn, li, ah];
    assert Dedup(four + [mn]) == four by {
      DedupDistinctFour(gp, mn, li, ah);
      DedupSnoc(four, mn);
    }
    DedupSnoc(four + [mn], li);
    assert four + [mn] + [li] == [gp, mn, li, ah, mn, li];
  }

  /** The topic list of the shipped bank. */
  lemma AllQuestionsTopics()
    ensures AvailableTopics(AllQuestions)
         == [GeneralPrinciples, MinnesotaRegulations, LifeInsurance, AccidentAndHealth]
  {
    AllQuestionsTopicsOf();
    DedupBankTopics(GeneralPrinciples, MinnesotaRegulations, LifeInsurance, AccidentAndHealth);
  }

  /** The bank positions among the first `k` whose topic is selected, in
      increasing order. */
  function SelectedUpTo(bank: seq<Question>, selected: seq<Topic>, k: nat): (ix: seq<nat>)
    requires k <= |bank|
    ensures forall j :: 0 <= j < |ix| ==> ix[j] < k && bank[ix[j]].topic in selected
    ensures forall i :: 0 <= i < k && bank[i].topic in selected ==> i in ix
    ensures forall j, j' :: 0 <= j < j' < |ix| ==> ix[j] < ix[j']
  {
    if k == 0 then []
    else
      var ix := SelectedUpTo(bank, selected, k - 1);
      if bank[k - 1].topic in selected then ix + [k - 1] else ix
  }

  /** `questionsForSelectedTopics`, as bank positions: exactly the positions
      whose topic is selected, in bank order. */
  function SelectedIndices(bank: seq<Question>, selected: seq<Topic>): (ix: seq<nat>)
    ensures forall j :: 0 <= j < |ix| ==> ix[j] < |bank| && bank[ix[j]].topic in selected
    ensures forall i :: 0 <= i < |bank| && bank[i].topic in selected ==> i in ix
    ensures forall j, j' :: 0 <= j < j' < |ix| ==> ix[j] < ix[j']
    ensures NoDup(ix)
  {
    SelectedUpTo(bank, selected, |bank|)
  }

  /** Every question's topic is on the topic list. */
  lemma TopicIsAvailable(bank: seq<Question>, i: nat)
    requires i < |bank|
    ensures bank[i].topic in AvailableTopics(bank)
  {
    var t := bank[i].topic;
    assert exists j :: 0 <= j < |bank| && bank[j].topic == t by {
      assert bank[i].topic == t;
    }
  }

  /** One step of `SelectAllTopics`: the next position is kept. */
  lemma SelectAllTopicsStep(bank: seq<Question>, k: nat)
    requires 0 < k <= |bank|
    requires SelectedUpTo(bank, AvailableTopics(bank), k - 1) == Positions(k - 1)
    ensures SelectedUpTo(bank, AvailableTopics(bank), k) == Positions(k)
  {
    TopicIsAvailable(bank, k - 1);
    var ps := Positions(k - 1) + [k - 1];
    assert SelectedUpTo(bank, AvailableTopics(bank), k) == ps;
    assert forall j :: 0 <= j < k ==> ps[j] == j;
  }

  /** With every topic of the bank selected (the initial selection), the
      filter keeps the whole bank, in bank order. */
  lemma {:induction false} SelectAllTopics(bank: seq<Question>, k: nat)
    requires k <= |bank|
    ensures SelectedUpTo(bank, AvailableTopics(bank), k) == Positions(k)
  {
    if k > 0 {
      SelectAllTopics(bank, k - 1);
      SelectAllTopicsStep(bank, k);
    }
  }

  /** The questions at the given bank positions. */
  function Questions(bank: seq<Question>, ix: seq<nat>): (qs: seq<Question>)
    requires forall j :: 0 <= j < |ix| ==> ix[j] < |bank|
    ensures |qs| == |ix|
    ensures forall j :: 0 <= j < |ix| ==> qs[j] == bank[ix[j]]
  {
    seq(|ix|, j requires 0 <= j < |ix| => bank[ix[j]])
  }
}

=== FILE: scoring.dfy ===
/** Building a quiz result when a quiz completes: the score, the per-topic
    breakdown, the percentage, and appending the result to the history
    (`handleAnswerSelect` and `saveResult` in components/PracticeTest.tsx). */
module Scoring {
  import opened Types
  import opened Tally

  /** Slot `i` of `answers` holds the correct answer to question `i`; a hole
      or a slot past the end of `answers` is never correct. */
  predicate IsCorrect(qs: seq<Question>, answers: seq<Option<string>>, i: nat)
    requires i < |qs|
  {
    i < |answers| && answers[i] == Some(qs[i].correctAnswer)
  }

  /** Reference count: questions among the first `k` whose topic is `t`. */
  function TopicCount(qs: seq<Question>, t: Topic, k: nat): nat
    requires k <= |qs|
  {
    if k == 0 then 0
    else TopicCount(qs, t, k - 1) + (if qs[k - 1].topic == t then 1 else 0)
  }

  /** Reference count: correctly answered questions among the first `k`
      whose topic is `t`. */
  function TopicHits(qs: seq<Question>, answers: seq<Option<string>>, t: Topic, k: nat): nat
    requires k <= |qs|
  {
    if k == 0 then 0
    else TopicHits(qs, answers, t, k - 1)
         + (if qs[k - 1].topic == t && IsCorrect(qs, answers, k - 1) then 1 else 0)
  }

  /** Reference count: correctly answered questions among the first `k`. */
  function Hits(qs: seq<Question>, answers: seq<Option<string>>, k: nat): nat
    requires k <= |qs|
  {
    if k == 0 then 0
    else Hits(qs, answers, k - 1) + (if IsCorrect(qs, answers, k - 1) then 1 else 0)
  }

  /** The breakdown after the first `k` steps of the loop over the questions:
      each question adds one to its topic's total, and one to its correct
      count when answered correctly. */
  function TallyUpTo(qs: seq<Question>, answers: seq<Option<string>>, k: nat): TopicPerformance
    requires k <= |qs|
  {
    if k == 0 then map[]
    else
      var hit := IsCorrect(qs, answers, k - 1);
      Add(TallyUpTo(qs, answers, k - 1), qs[k - 1].topic, Counts(if hit then 1 else 0, 1))
  }

  lemma {:induction false} TopicHitsAtMostCount(qs: seq<Question>, answers: seq<Option<string>>, t: Topic, k: nat)
    requires k <= |qs|
    ensures TopicHits(qs, answers, t, k) <= TopicCount(qs, t, k)
  {
    if k > 0 {
      TopicHitsAtMostCount(qs, answers, t, k - 1);
    }
  }

  /** The topics of the first `k` questions. */
  function TopicsUpTo(qs: seq<Question>, k: nat): set<Topic>
    requires k <= |qs|
  {
    if k == 0 then {} else TopicsUpTo(qs, k - 1) + {qs[k - 1].topic}
  }

  /** A topic is among the first `k` exactly when one of those questions has it. */
  lemma {:induction false} TopicsUpToMembers(qs: seq<Question>, k: nat)
    requires k <= |qs|
    ensures forall t :: t in TopicsUpTo(qs, k) <==> exists i :: 0 <= i < k && qs[i].topic == t
  {
    if k > 0 {
      TopicsUpToMembers(qs, k - 1);
    }
  }

  lemma {:induction false} TallyUpToKeys(qs: seq<Question>, answers: seq<Option<string>>, k: nat)
    requires k <= |qs|
    ensures TallyUpTo(qs, answers, k).Keys == TopicsUpTo(qs, k)
  {
    if k > 0 {
      TallyUpToKeys(qs, answers, k - 1);
    }
  }

  lemma {:induction false} TallyUpToLookup(qs: seq<Question>, answers: seq<Option<string>>, k: nat)
    requires k <= |qs|
    ensures forall t :: Lookup(TallyUpTo(qs, answers, k), t)
                     == Counts(TopicHits(qs, answers, t, k), TopicCount(qs, t, k))
  {
    if k > 0 {
      TallyUpToLookup(qs, answers, k - 1);
    }
  }

  /** One step of the loop over the questions adds one question to the sum. */
  lemma TallyUpToSumStep(qs: seq<Question>, answers: seq<Option<string>>, k: nat)
    requires 0 < k <= |qs|
    requires Sum(TallyUpTo(qs, answers, k - 1)) == Counts(Hits(qs, answers, k - 1), k - 1)
    ensures Sum(TallyUpTo(qs, answers, k)) == Counts(Hits(qs, answers, k), k)
  {
    var one := Counts(if IsCorrect(qs, answers, k - 1) then 1 else 0, 1);
    var prev := TallyUpTo(qs, answers, k - 1);
    assert TallyUpTo(qs, answers, k) == Add(prev, qs[k - 1].topic, one);
    SumAdd(prev, qs[k - 1].topic, one);
  }

  lemma {:induction false} TallyUpToSum(qs: seq<Question>, answers: seq<Option<string>>, k: nat)
    requires k <= |qs|
    ensures Sum(TallyUpTo(qs, answers, k)) == Counts(Hits(qs, answers, k), k)
  {
    if k > 0 {
      TallyUpToSum(qs, answers, k - 1);
      TallyUpToSumStep(qs, answers, k);
    }
  }

  /** `topicBreakdown` of `saveResult`: one entry per topic of the quiz, each
      holding that topic's number of questions and of correct answers. */
  function Breakdown(qs: seq<Question>, answers: seq<Option<string>>): (b: TopicPerformance)
    ensures b.Keys == set i | 0 <= i < |qs| :: qs[i].topic
    ensures forall t :: Lookup(b, t) == Counts(TopicHits(qs, answers, t, |qs|), TopicCount(qs, t, |qs|))
    ensures Consistent(b)
    ensures Sum(b) == Counts(Hits(qs, answers, |qs|), |qs|)
  {
    TallyUpToKeys(qs, answers, |qs|);
    TopicsUpToMembers(qs, |qs|);
    TallyUpToLookup(qs, answers, |qs|);
    TallyUpToSum(qs, answers, |qs|);
    var b := TallyUpTo(qs, answers, |qs|);
    assert Consistent(b) by {
      forall t | t in b
        ensures b[t].correct <= b[t].total
      {
        TopicHitsAtMostCount(qs, answers, t, |qs|);
        assert b[t] == Lookup(b, t);
      }
    }
    b
  }

  /** The score after folding the first `k` answer slots: a slot adds one
      when it equals its question's correct answer; holes add nothing. */
  function ScoreUpTo(qs: seq<Question>, answers: seq<Option<string>>, k: nat): nat
    requires k <= |answers| <= |qs|
  {
    if k == 0 then 0
    else
      ScoreUpTo(qs, answers, k - 1)
      + (if answers[k - 1] == Some(qs[k - 1].correctAnswer) then 1 else 0)
  }

  lemma {:induction false} ScoreUpToIsHits(qs: seq<Question>, answers: seq<Option<string>>, k: nat)
    requires k <= |answers| <= |qs|
    ensures ScoreUpTo(qs, answers, k) == Hits(qs, answers, k)
  {
    if k > 0 {
      ScoreUpToIsHits(qs, answers, k - 1);
    }
  }

  /** Slots past the end of `answers` are never correct, so no hits are added there. */
  lemma {:induction false} HitsPastAnswers(qs: seq<Question>, answers: seq<Option<string>>, k: nat)
    requires |answers| <= k <= |qs|
    ensures Hits(qs, answers, k) == Hits(qs, answers, |answers|)
  {
    if k > |answers| {
      HitsPastAnswers(qs, answers, k - 1);
    }
  }

  /** The score computed when the last question is answered: the reduce over
      the answers array. A slot past the last question would make the component
      read a field of `undefined`, hence the requirement. The score is the
      sum of the correct counts of the breakdown. */
  function Score(qs: seq<Question>, answers: seq<Option<string>>): (score: nat)
    requires |answers| <= |qs|
    ensures score <= |answers|
    ensures score == Sum(Breakdown(qs, answers)).correct
  {
    ScoreUpToIsHits(qs, answers, |answers|);
    HitsPastAnswers(qs, answers, |qs|);
    HitsAtMost(qs, answers, |answers|);
    ScoreUpTo(qs, answers, |answers|)
  }

  lemma {:induction false} HitsAtMost(qs: seq<Question>, answers: seq<Option<string>>, k: nat)
    requires k <= |qs|
    ensures Hits(qs, answers, k) <= k
  {
    if k > 0 {
      HitsAtMost(qs, answers, k - 1);
    }
  }

  /** `percentage`: the score as a share of 100, and 0 for an empty quiz. */
  function Percentage(score: nat, total: nat): (p: real)
    ensures total == 0 ==> p == 0.0
    ensures total > 0 ==> p * (total as real) == 100.0 * (score as real)
    ensures score <= total ==> 0.0 <= p <= 100.0
  {
    if total > 0 then (score as real / total as real) * 100.0 else 0.0
  }

  /** What every result built from a completed quiz satisfies: consistent
      tallies summing to its score and question count, and its percentage. */
  ghost predicate WellFormed(r: QuizResult) {
    && Consistent(r.topicBreakdown)
    && Sum(r.topicBreakdown) == Counts(r.score, r.totalQuestions)
    && r.score <= r.totalQuestions
    && r.percentage == Percentage(r.score, r.totalQuestions)
  }

  /** A result whose score is the score of its answers is well formed. */
  lemma ScoredResultWellFormed(date: int, qs: seq<Question>, answers: seq<Option<string>>,
                               wasExamMode: bool)
    requires |answers| <= |qs|
    ensures WellFormed(QuizResult(date, Score(qs, answers), |qs|, Percentage(Score(qs, answers), |qs|),
                                  Breakdown(qs, answers), wasExamMode))
  {
    var score := Score(qs, answers);
    var b := Breakdown(qs, answers);
    assert Sum(b) == Counts(score, |qs|);
    assert Consistent(b);
    assert score <= |qs|;
  }

  /** `newResult` of `saveResult`: the breakdown covers exactly the topics
      of the quiz, each holding its own question and correct-answer counts,
      and the percentage is the caller's score out of the question count.
      The score is passed in by the caller; when it is the score of the
      answers, the result is well formed. */
  function MakeResult(date: int, score: nat, qs: seq<Question>, answers: seq<Option<string>>,
                      wasExamMode: bool): (r: QuizResult)
    ensures r.date == date && r.score == score && r.isExamMode == wasExamMode
    ensures r.totalQuestions == |qs|
    ensures r.topicBreakdown.Keys == set i | 0 <= i < |qs| :: qs[i].topic
    ensures forall t :: Lookup(r.topicBreakdown, t)
                        == Counts(TopicHits(qs, answers, t, |qs|), TopicCount(qs, t, |qs|))
    ensures Consistent(r.topicBreakdown)
    ensures Sum(r.topicBreakdown).total == |qs|
    ensures r.percentage == Percentage(score, |qs|)
    ensures |answers| <= |qs| && score == Score(qs, answers) ==> WellFormed(r)
  {
    var r := QuizResult(date, score, |qs|, Percentage(score, |qs|), Breakdown(qs, answers), wasExamMode);
    if |answers| <= |qs| && score == Score(qs, answers) then
      ScoredResultWellFormed(date, qs, answers, wasExamMode);
      r
    else
      r
  }

  /** `saveResult`'s update of the history: the new result is appended and
      the earlier results are kept unchanged. */
  function SaveResult(history: seq<QuizResult>, date: int, score: nat, qs: seq<Question>,
                      answers: seq<Option<string>>, wasExamMode: bool): (h: seq<QuizResult>)
    ensures |h| == |history| + 1
    ensures h[..|history|] == history
    ensures h[|history|] == MakeResult(date, score, qs, answers, wasExamMode)
    ensures |answers| <= |qs| && score == Score(qs, answers) ==> WellFormed(h[|history|])
  {
    history + [MakeResult(date, score, qs, answers, wasExamMode)]
  }
}

=== FILE: sequences.dfy ===
/** Sequence facts the quiz engine relies on: duplicate-free sequences, the
    insertion order of a JavaScript `Set`, and permutations of positions. */
module Sequences {

  /** No element occurs twice. */
  predicate NoDup<T(==)>(s: seq<T>) {
    forall i, j :: 0 <= i < j < |s| ==> s[i] != s[j]
  }

  /** A duplicate-free sequence is its first element, absent from a
      duplicate-free rest. */
  lemma NoDupCons<T>(x: T, s: seq<T>)
    ensures NoDup([x] + s) <==> x !in s && NoDup(s)
  {
    var c := [x] + s;
    if x !in s && NoDup(s) {
      forall i, j | 0 <= i < j < |c|
        ensures c[i] != c[j]
      {
        if i > 0 {
          assert c[i] == s[i - 1] && c[j] == s[j - 1];
        } else {
          assert c[j] == s[j - 1];
        }
      }
    }
    if NoDup(c) {
      forall i, j | 0 <= i < j < |s|
        ensures s[i] != s[j]
      {
        assert c[i + 1] == s[i] && c[j + 1] == s[j];
      }
      forall k | 0 <= k < |s|
        ensures s[k] != x
      {
        assert c[0] != c[k + 1];
      }
    }
  }

  /** A non-empty sequence is its first elements followed by its last one. */
  lemma SplitLast<T>(h: seq<T>)
    requires |h| > 0
    ensures h[..|h| - 1] + [h[|h| - 1]] == h
  {
  }

  /** The distinct elements of `s` in order of first occurrence: what
      spreading a JavaScript `Set` built from `s` yields, since a `Set`
      iterates in insertion order. */
  function Dedup<T(==,!new)>(s: seq<T>): (d: seq<T>)
    ensures NoDup(d)
    ensures forall x :: x in d <==> x in s
    decreases |s|
  {
    if |s| == 0 then []
    else
      var init := s[..|s| - 1];
      var d := Dedup(init);
      assert s == init + [s[|s| - 1]];
      if s[|s| - 1] in d then d else d + [s[|s| - 1]]
  }

  /** Appending one element adds it at the end unless it is already listed. */
  lemma DedupSnoc<T(!new)>(s: seq<T>, x: T)
    ensures Dedup(s + [x]) == if x in Dedup(s) then Dedup(s) else Dedup(s) + [x]
  {
    assert (s + [x])[..|s + [x]| - 1] == s;
  }

  /** Deduplicating a prefix gives a prefix of the whole: an element that
      occurs earlier in `s` is listed earlier, and later elements never
      reorder what is already listed. */
  lemma {:induction false} DedupPrefix<T(!new)>(s: seq<T>, k: nat)
    requires k <= |s|
    ensures Dedup(s[..k]) <= Dedup(s)
    decreases |s|
  {
    if k < |s| {
      var init := s[..|s| - 1];
      DedupPrefix(init, k);
      assert init[..k] == s[..k];
      assert Dedup(init) <= Dedup(s);
    } else {
      assert s[..k] == s;
    }
  }

  /** `perm` lists every position of a length-`n` sequence exactly once: the
      order a shuffle leaves the elements in. */
  predicate IsPermutation(perm: seq<nat>, n: nat) {
    && |perm| == n
    && (forall k :: 0 <= k < n ==> perm[k] < n)
    && NoDup(perm)
  }

  /** The elements of `s`, as a set. */
  function Elements<T>(s: seq<T>): set<T> {
    set x | x in s
  }

  /** The set of elements of a duplicate-free sequence has one element per position. */
  lemma {:induction false} NoDupCard<T>(s: seq<T>)
    requires NoDup(s)
    ensures |Elements(s)| == |s|
    decreases |s|
  {
    if |s| > 0 {
      var init := s[..|s| - 1];
      var last := s[|s| - 1];
      NoDupCard(init);
      assert s == init + [last];
      assert last !in init;
      assert Elements(s) == Elements(init) + {last};
    }
  }

  /** The positions 0, ..., n-1 in increasing order. */
  function Positions(n: nat): (ps: seq<nat>)
    ensures |ps| == n
    ensures forall k :: 0 <= k < n ==> ps[k] == k
  {
    seq(n, k => k)
  }

  /** Pigeonhole: a permutation of the positions below `n` lists every one of them. */
  lemma PermutationCovers(perm: seq<nat>, n: nat)
    requires IsPermutation(perm, n)
    ensures forall i :: 0 <= i < n ==> i in perm
  {
    var image := Elements(perm);
    var range := Elements(Positions(n));
    NoDupCard(perm);
    NoDupCard(Positions(n));
    forall x | x in image
      ensures x in range
    {
      var k :| 0 <= k < |perm| && perm[k] == x;
      assert Positions(n)[x] == x;
    }
    assert image <= range;
    assert |range - image| == |range| - |image|;
    assert |image| == n;
    assert |range| == n;
    assert |range - image| == 0;
    forall i | 0 <= i < n
      ensures i in perm
    {
      assert Positions(n)[i] == i;
      assert i in range;
    }
  }
}

=== FILE: session.dfy ===
/** The practice-test component as a state machine: the screen shown, the
    setup choices, the running quiz and the saved history, with the steps
    the user can take (components/PracticeTest.tsx). Each step is followed
    by the question-count effect, which only acts on the setup screen. */
module Session {
  import opened Types
  import opened Sequences
  import opened QuestionBank
  import opened Setup
  import opened Scoring

  datatype View = DashboardView | SetupView | QuizView | ResultsView

  /** The component's state. The quiz is kept as the bank positions of its
      questions, so that "distinct questions" can be stated; `userAnswers`
      is a JavaScript array, whose unwritten slots are holes (`None`). */
  datatype State = State(
    view: View,
    selectedTopics: seq<Topic>,
    questionCount: nat,
    isExamMode: bool,
    picks: seq<nat>,
    currentIndex: nat,
    userAnswers: seq<Option<string>>,
    showDetailedReview: bool,
    quizHistory: seq<QuizResult>)

  /** `questionsForSelectedTopics`, as bank positions. */
  function Filtered(bank: seq<Question>, s: State): seq<nat> {
    SelectedIndices(bank, s.selectedTopics)
  }

  /** The questions of the running quiz. */
  function QuizQuestions(bank: seq<Question>, s: State): (qs: seq<Question>)
    requires forall j :: 0 <= j < |s.picks| ==> s.picks[j] < |bank|
    ensures |qs| == |s.picks|
    ensures forall j :: 0 <= j < |qs| ==> qs[j] == bank[s.picks[j]]
  {
    Questions(bank, s.picks)
  }

  /** Every written answer slot belongs to a question of the quiz and holds
      one of that question's options: the buttons offer nothing else. */
  predicate AnswersAreOptions(bank: seq<Question>, picks: seq<nat>, answers: seq<Option<string>>)
    requires forall j :: 0 <= j < |picks| ==> picks[j] < |bank|
  {
    forall i :: 0 <= i < |answers| && answers[i].Some? ==>
      i < |picks| && answers[i].value in bank[picks[i]].options
  }

  /** Each choice is an option of the question it answers, the first choice
      answering the question at position `from`. */
  predicate ChoicesAreOptions(bank: seq<Question>, picks: seq<nat>, from: nat, choices: seq<string>)
    requires forall j :: 0 <= j < |picks| ==> picks[j] < |bank|
  {
    forall i :: 0 <= i < |choices| && from + i < |picks| ==> choices[i] in bank[picks[from + i]].options
  }

  /** What holds of every state the component can reach: the selection
      lists no topic twice; the quiz is distinct questions of the bank;
      every written answer is an option of its question; on
      the setup screen the count has settled; during a quiz the answers
      reach up to the current question; on the results screen every
      question has an answer slot and the last saved result is the score of
      those answers. */
  ghost predicate Valid(bank: seq<Question>, s: State) {
    && NoDup(s.selectedTopics)
    && (forall j :: 0 <= j < |s.picks| ==> s.picks[j] < |bank|)
    && NoDup(s.picks)
    && AnswersAreOptions(bank, s.picks, s.userAnswers)
    && (s.view == SetupView ==>
          && s.questionCount <= |Filtered(bank, s)|
          && (s.questionCount == 0 <==> |Filtered(bank, s)| == 0))
    && (s.view == QuizView ==>
          && s.currentIndex < |s.picks|
          && |s.userAnswers| == s.currentIndex)
    && (s.view == ResultsView ==>
          && |s.userAnswers| == |s.picks|
          && |s.quizHistory| > 0
          && s.quizHistory[|s.quizHistory| - 1].score == Score(QuizQuestions(bank, s), s.userAnswers)
          && s.quizHistory[|s.quizHistory| - 1].totalQuestions == |s.picks|
          && WellFormed(s.quizHistory[|s.quizHistory| - 1]))
  }

  /** The question-count effect, run after a step with the step's state. */
  function Settle(bank: seq<Question>, s: State): (s': State)
    ensures s' == s.(questionCount := s'.questionCount)
    ensures s.view == SetupView ==>
              && s'.questionCount <= |Filtered(bank, s)|
              && (s'.questionCount == 0 <==> |Filtered(bank, s)| == 0)
    ensures s.view == SetupView && s.questionCount > |Filtered(bank, s)| ==>
              s'.questionCount == |Filtered(bank, s)|
    ensures s.view == SetupView && 0 < s.questionCount <= |Filtered(bank, s)| ==>
              s'.questionCount == s.questionCount
    ensures s.view == SetupView && s.questionCount == 0 ==>
              s'.questionCount == Min(DefaultCount, |Filtered(bank, s)|)
    ensures s.view != SetupView ==> s' == s
  {
    s.(questionCount := ClampCount(s.view == SetupView, |Filtered(bank, s)|, s.questionCount))
  }

  /** The state on mount: the dashboard, every topic selected, five
      questions, practice mode, and the history read from storage. */
  function Initial(bank: seq<Question>, stored: seq<QuizResult>): (s: State)
    ensures Valid(bank, s)
    ensures s.view == DashboardView && s.quizHistory == stored
    ensures forall t :: t in s.selectedTopics <==> exists i :: 0 <= i < |bank| && bank[i].topic == t
    ensures s.questionCount == DefaultCount && !s.isExamMode
  {
    State(DashboardView, AvailableTopics(bank), DefaultCount, false, [], 0, [], false, stored)
  }

  /** With every topic of the bank selected, the filter keeps the whole bank. */
  lemma InitialFilterKeepsBank(bank: seq<Question>, stored: seq<QuizResult>)
    ensures Filtered(bank, Initial(bank, stored)) == Positions(|bank|)
  {
    SelectAllTopics(bank, |bank|);
  }

  /** The "Start New Quiz" and "New Quiz" buttons: the setup screen, with
      the count settled against the current selection. */
  function OpenSetup(bank: seq<Question>, s: State): (s': State)
    requires Valid(bank, s)
    ensures Valid(bank, s')
    ensures s'.view == SetupView
    ensures s'.selectedTopics == s.selectedTopics && s'.quizHistory == s.quizHistory
    ensures s' == s.(view := SetupView, questionCount := s'.questionCount)
    ensures s.questionCount > |Filtered(bank, s)| ==> s'.questionCount == |Filtered(bank, s)|
    ensures 0 < s.questionCount <= |Filtered(bank, s)| ==> s'.questionCount == s.questionCount
    ensures s.questionCount == 0 ==> s'.questionCount == Min(DefaultCount, |Filtered(bank, s)|)
  {
    Settle(bank, s.(view := SetupView))
  }

  /** The "Dashboard" and "Back to Dashboard" buttons. */
  function OpenDashboard(bank: seq<Question>, s: State): (s': State)
    requires Valid(bank, s)
    ensures Valid(bank, s')
    ensures s'.view == DashboardView
    ensures s' == s.(view := DashboardView)
  {
    Settle(bank, s.(view := DashboardView))
  }

  /** Ticking or unticking a topic on the setup screen; the count then
      settles against the new filter. */
  function ChangeTopic(bank: seq<Question>, s: State, t: Topic): (s': State)
    requires Valid(bank, s) && s.view == SetupView
    ensures Valid(bank, s')
    ensures t in s'.selectedTopics <==> t !in s.selectedTopics
    ensures forall u :: u != t ==> (u in s'.selectedTopics <==> u in s.selectedTopics)
    ensures s'.questionCount <= |Filtered(bank, s')|
    ensures s.questionCount > |Filtered(bank, s')| ==> s'.questionCount == |Filtered(bank, s')|
    ensures 0 < s.questionCount <= |Filtered(bank, s')| ==> s'.questionCount == s.questionCount
    ensures s.questionCount == 0 ==> s'.questionCount == Min(DefaultCount, |Filtered(bank, s')|)
    ensures s' == s.(selectedTopics := s'.selectedTopics, questionCount := s'.questionCount)
  {
    Settle(bank, s.(selectedTopics := ToggleTopic(s.selectedTopics, t)))
  }

  /** The count slider, which offers the values 1 to the number of
      matching questions and is disabled when there are none. */
  function MoveSlider(bank: seq<Question>, s: State, c: nat): (s': State)
    requires Valid(bank, s) && s.view == SetupView
    requires 1 <= c <= |Filtered(bank, s)|
    ensures Valid(bank, s')
    ensures s' == s.(questionCount := c)
  {
    Settle(bank, s.(questionCount := c))
  }

  /** The exam-mode switch on the setup screen. */
  function SetExamMode(bank: seq<Question>, s: State, on: bool): (s': State)
    requires Valid(bank, s) && s.view == SetupView
    ensures Valid(bank, s')
    ensures s' == s.(isExamMode := on)
  {
    Settle(bank, s.(isExamMode := on))
  }

  /** The first `count` entries of `filtered` in the order `perm` shuffles
      it into, or all of them when there are fewer. */
  function Draw(filtered: seq<nat>, perm: seq<nat>, count: nat): (d: seq<nat>)
    requires IsPermutation(perm, |filtered|)
    ensures |d| == Min(count, |filtered|)
    ensures forall k :: 0 <= k < |d| ==> d[k] in filtered
    ensures NoDup(filtered) ==> NoDup(d)
  {
    var m := Min(count, |filtered|);
    var d := seq(m, k requires 0 <= k < m => filtered[perm[k]]);
    assert NoDup(filtered) ==> NoDup(d) by {
      if NoDup(filtered) {
        forall i, j | 0 <= i < j < m
          ensures d[i] != d[j]
        {
          assert perm[i] != perm[j];
        }
      }
    }
    d
  }

  /** Asking for at least as many questions as match draws every one of them. */
  lemma DrawAll(filtered: seq<nat>, perm: seq<nat>, count: nat)
    requires IsPermutation(perm, |filtered|)
    requires count >= |filtered|
    ensures forall x :: x in filtered ==> x in Draw(filtered, perm, count)
  {
    var d := Draw(filtered, perm, count);
    PermutationCovers(perm, |filtered|);
    forall x | x in filtered
      ensures x in d
    {
      var i :| 0 <= i < |filtered| && filtered[i] == x;
      assert i in perm;
      var k :| 0 <= k < |perm| && perm[k] == i;
      assert d[k] == x;
    }
  }

  /** `handleStartQuiz`, reached through the start button, which is
      disabled unless its guard holds. The shuffle is the permutation
      `perm` of the matching questions. */
  function Start(bank: seq<Question>, s: State, perm: seq<nat>): (s': State)
    requires Valid(bank, s) && s.view == SetupView
    requires CanStart(s.selectedTopics, |Filtered(bank, s)|, s.questionCount)
    requires IsPermutation(perm, |Filtered(bank, s)|)
    ensures Valid(bank, s')
    ensures s'.view == QuizView && s'.currentIndex == 0 && s'.userAnswers == []
    ensures |s'.picks| == Min(s.questionCount, |Filtered(bank, s)|) == s.questionCount
    ensures forall j :: 0 <= j < |s'.picks| ==> s'.picks[j] in Filtered(bank, s)
    ensures forall j :: 0 <= j < |s'.picks| ==> bank[s'.picks[j]].topic in s.selectedTopics
    ensures s'.showDetailedReview == !s.isExamMode
    ensures s' == s.(view := QuizView, picks := s'.picks, currentIndex := 0, userAnswers := [],
                     showDetailedReview := s'.showDetailedReview)
  {
    var picks := Draw(Filtered(bank, s), perm, s.questionCount);
    Settle(bank, s.(view := QuizView, picks := picks, currentIndex := 0, userAnswers := [],
                    showDetailedReview := !s.isExamMode))
  }

  /** The array write `answers[i] = v`: a slot past the end grows the array,
      leaving holes between the old end and `i`. */
  function Store(answers: seq<Option<string>>, i: nat, v: string): (r: seq<Option<string>>)
    ensures |r| == if i < |answers| then |answers| else i + 1
    ensures r[i] == Some(v)
    ensures forall j :: 0 <= j < |answers| && j != i ==> r[j] == answers[j]
    ensures forall j :: |answers| <= j < i ==> r[j] == None
  {
    if i < |answers| then answers[i := Some(v)]
    else answers + seq(i - |answers|, _ => None) + [Some(v)]
  }

  /** `handleAnswerSelect` together with the timer it sets: the answer is
      recorded at the current question, then the quiz moves to the next
      question or, after the last one, scores the answers, saves one result
      dated `now` and shows the results. */
  function Answer(bank: seq<Question>, s: State, answer: string, now: int): (s': State)
    requires Valid(bank, s) && s.view == QuizView
    requires answer in bank[s.picks[s.currentIndex]].options
    ensures Valid(bank, s')
    ensures |s'.userAnswers| == s.currentIndex + 1
    ensures s'.userAnswers[s.currentIndex] == Some(answer)
    ensures s'.userAnswers[..s.currentIndex] == s.userAnswers
    ensures s.currentIndex < |s.picks| - 1 ==>
              && s'.view == QuizView
              && s'.currentIndex == s.currentIndex + 1 < |s.picks|
              && s'.quizHistory == s.quizHistory
    ensures s.currentIndex == |s.picks| - 1 ==>
              && s'.view == ResultsView
              && |s'.quizHistory| == |s.quizHistory| + 1
              && s'.quizHistory[..|s.quizHistory|] == s.quizHistory
              && s'.currentIndex == s.currentIndex
              && s'.quizHistory[|s.quizHistory|]
                 == MakeResult(now, Score(QuizQuestions(bank, s), s'.userAnswers), QuizQuestions(bank, s),
                               s'.userAnswers, s.isExamMode)
    ensures s' == s.(view := s'.view, currentIndex := s'.currentIndex, userAnswers := s'.userAnswers,
                     quizHistory := s'.quizHistory)
  {
    var answers := Store(s.userAnswers, s.currentIndex, answer);
    assert answers[..s.currentIndex] == s.userAnswers;
    if s.currentIndex < |s.picks| - 1 then
      Settle(bank, s.(userAnswers := answers, currentIndex := s.currentIndex + 1))
    else
      var qs := QuizQuestions(bank, s);
      var score := Score(qs, answers);
      Settle(bank, s.(userAnswers := answers, view := ResultsView,
                      quizHistory := SaveResult(s.quizHistory, now, score, qs, answers, s.isExamMode)))
  }

  /** Each chosen option wrapped as a written answer slot. */
  function Written(choices: seq<string>): (w: seq<Option<string>>)
    ensures |w| == |choices|
    ensures forall i :: 0 <= i < |choices| ==> w[i] == Some(choices[i])
  {
    seq(|choices|, i requires 0 <= i < |choices| => Some(choices[i]))
  }

  /** Answering the remaining questions with `choices`, one per question,
      every timer firing at `now`. */
  function Run(bank: seq<Question>, s: State, choices: seq<string>, now: int): State
    requires Valid(bank, s) && s.view == QuizView
    requires |choices| <= |s.picks| - s.currentIndex
    requires ChoicesAreOptions(bank, s.picks, s.currentIndex, choices)
    decreases |choices|
  {
    if |choices| == 0 then s
    else
      ChoicesAreOptionsHead(bank, s.picks, s.currentIndex, choices);
      var next := Answer(bank, s, choices[0], now);
      if |choices| == 1 then next
      else
        ChoicesAreOptionsTail(bank, s.picks, s.currentIndex, choices);
        Run(bank, next, choices[1..], now)
  }

  /** The first choice is an option of the question at `from`. */
  lemma ChoicesAreOptionsHead(bank: seq<Question>, picks: seq<nat>, from: nat, choices: seq<string>)
    requires forall j :: 0 <= j < |picks| ==> picks[j] < |bank|
    requires ChoicesAreOptions(bank, picks, from, choices) && 0 < |choices| && from < |picks|
    ensures choices[0] in bank[picks[from]].options
  {
    assert from + 0 == from;
  }

  /** The choices after the first answer the questions after the first. */
  lemma ChoicesAreOptionsTail(bank: seq<Question>, picks: seq<nat>, from: nat, choices: seq<string>)
    requires forall j :: 0 <= j < |picks| ==> picks[j] < |bank|
    requires ChoicesAreOptions(bank, picks, from, choices) && |choices| > 0
    ensures ChoicesAreOptions(bank, picks, from + 1, choices[1..])
  {
    forall i | 0 <= i < |choices| - 1 && from + 1 + i < |picks|
      ensures choices[1..][i] in bank[picks[from + 1 + i]].options
    {
      assert choices[1..][i] == choices[i + 1];
    }
  }

  /** Answering every remaining question ends on the results screen with
      exactly one result appended to the history. */
  lemma {:induction false} RunCompletes(bank: seq<Question>, s: State, choices: seq<string>, now: int)
    requires Valid(bank, s) && s.view == QuizView
    requires |choices| == |s.picks| - s.currentIndex
    requires ChoicesAreOptions(bank, s.picks, s.currentIndex, choices)
    ensures Valid(bank, Run(bank, s, choices, now))
    ensures Run(bank, s, choices, now).view == ResultsView
    ensures |Run(bank, s, choices, now).quizHistory| == |s.quizHistory| + 1
    ensures Run(bank, s, choices, now).quizHistory[..|s.quizHistory|] == s.quizHistory
    decreases |choices|
  {
    ChoicesAreOptionsHead(bank, s.picks, s.currentIndex, choices);
    var next := Answer(bank, s, choices[0], now);
    if |choices| > 1 {
      RunUnfold(bank, s, choices, now);
      ChoicesAreOptionsTail(bank, s.picks, s.currentIndex, choices);
      RunCompletes(bank, next, choices[1..], now);
    } else {
      assert Run(bank, s, choices, now) == next;
    }
  }

  /** During a quiz an answer is written just after the earlier ones. */
  lemma AnswerAppends(bank: seq<Question>, s: State, answer: string, now: int)
    requires Valid(bank, s) && s.view == QuizView
    requires answer in bank[s.picks[s.currentIndex]].options
    ensures Answer(bank, s, answer, now).userAnswers == s.userAnswers + [Some(answer)]
    ensures Answer(bank, s, answer, now).picks == s.picks
  {
    var a := Answer(bank, s, answer, now).userAnswers;
    assert a == a[..s.currentIndex] + [a[s.currentIndex]];
  }

  /** Running several choices is answering the first, then running the rest. */
  lemma RunUnfold(bank: seq<Question>, s: State, choices: seq<string>, now: int)
    requires Valid(bank, s) && s.view == QuizView
    requires 1 < |choices| <= |s.picks| - s.currentIndex
    requires ChoicesAreOptions(bank, s.picks, s.currentIndex, choices)
    ensures Answer(bank, s, choices[0], now).view == QuizView
    ensures Run(bank, s, choices, now) == Run(bank, Answer(bank, s, choices[0], now), choices[1..], now)
  {
  }

  /** Written slots of a non-empty choice list: the first, then the rest. */
  lemma WrittenCons(choices: seq<string>)
    requires |choices| > 0
    ensures Written(choices) == [Some(choices[0])] + Written(choices[1..])
  {
  }

  /** Writing one choice and then the rest writes all of them. */
  lemma WrittenAfter(earlier: seq<Option<string>>, choices: seq<string>)
    requires |choices| > 0
    ensures (earlier + [Some(choices[0])]) + Written(choices[1..]) == earlier + Written(choices)
  {
    WrittenCons(choices);
  }

  /** Answering the remaining questions writes the choices after the
      earlier answers and keeps the quiz. */
  lemma {:induction false} RunAnswers(bank: seq<Question>, s: State, choices: seq<string>, now: int)
    requires Valid(bank, s) && s.view == QuizView
    requires |choices| <= |s.picks| - s.currentIndex
    requires ChoicesAreOptions(bank, s.picks, s.currentIndex, choices)
    ensures Run(bank, s, choices, now).userAnswers == s.userAnswers + Written(choices)
    ensures Run(bank, s, choices, now).picks == s.picks
    decreases |choices|
  {
    if |choices| == 0 {
      assert s.userAnswers + Written(choices) == s.userAnswers;
    } else {
      AnswerAppends(bank, s, choices[0], now);
      WrittenAfter(s.userAnswers, choices);
      if |choices| > 1 {
        RunUnfold(bank, s, choices, now);
        ChoicesAreOptionsTail(bank, s.picks, s.currentIndex, choices);
        RunAnswers(bank, Answer(bank, s, choices[0], now), choices[1..], now);
      } else {
        assert Written(choices[1..]) == [];
      }
    }
  }

  /** A whole quiz: after starting, answering every question shows the
      results, saves exactly one well-formed result whose score is the score
      of the choices, and keeps every earlier result. */
  lemma QuizCompletes(bank: seq<Question>, s: State, perm: seq<nat>, choices: seq<string>, now: int)
    requires Valid(bank, s) && s.view == SetupView
    requires CanStart(s.selectedTopics, |Filtered(bank, s)|, s.questionCount)
    requires IsPermutation(perm, |Filtered(bank, s)|)
    requires |choices| == s.questionCount
    requires ChoicesAreOptions(bank, Start(bank, s, perm).picks, 0, choices)
    ensures var quiz := Start(bank, s, perm);
            var done := Run(bank, quiz, choices, now);
            && done.view == ResultsView
            && |done.quizHistory| == |s.quizHistory| + 1
            && done.quizHistory[..|s.quizHistory|] == s.quizHistory
            && done.quizHistory[|s.quizHistory|].score == Score(QuizQuestions(bank, quiz), Written(choices))
            && done.quizHistory[|s.quizHistory|].totalQuestions == s.questionCount
            && WellFormed(done.quizHistory[|s.quizHistory|])
  {
    var quiz := Start(bank, s, perm);
    assert quiz.quizHistory == s.quizHistory && |quiz.picks| == s.questionCount;
    assert quiz.userAnswers == [];
    var done := Run(bank, quiz, choices, now);
    RunCompletes(bank, quiz, choices, now);
    assert done.picks == quiz.picks && done.userAnswers == Written(choices) by {
      RunAnswers(bank, quiz, choices, now);
      assert [] + Written(choices) == Written(choices);
    }
    assert QuizQuestions(bank, done) == QuizQuestions(bank, quiz);
  }
}

=== FILE: setup.dfy ===
/** The rules of the quiz setup screen: toggling a topic, the effect that
    keeps the question count in range, and the guard on the start button
    (components/PracticeTest.tsx). */
module Setup {
  import opened Types
  import opened Sequences

  /** The question count a new component starts with, and the count the
      effect falls back to when it finds zero. */
  const DefaultCount: nat := 5

  function Min(a: nat, b: nat): nat {
    if a <= b then a else b
  }

  /** The selection with every occurrence of `t` removed, order kept. */
  function RemoveTopic(selected: seq<Topic>, t: Topic): (r: seq<Topic>)
    ensures forall u :: u in r <==> u in selected && u != t
    ensures t !in selected ==> r == selected
    ensures NoDup(selected) ==> NoDup(r)
    decreases |selected|
  {
    if |selected| == 0 then []
    else
      var rest := RemoveTopic(selected[1..], t);
      assert selected == [selected[0]] + selected[1..];
      NoDupCons(selected[0], selected[1..]);
      NoDupCons(selected[0], rest);
      if selected[0] == t then rest else [selected[0]] + rest
  }

  /** Removing `t` from a sequence that ends in `t` removes that last element too. */
  lemma {:induction false} RemoveTopicSnoc(selected: seq<Topic>, t: Topic)
    ensures RemoveTopic(selected + [t], t) == RemoveTopic(selected, t)
    decreases |selected|
  {
    if |selected| == 0 {
      assert RemoveTopic([t], t) == RemoveTopic([], t);
    } else {
      assert (selected + [t])[1..] == selected[1..] + [t];
      RemoveTopicSnoc(selected[1..], t);
    }
  }

  /** `handleTopicChange`: an unticked topic is appended to the selection, a
      ticked one is removed from it. */
  function ToggleTopic(selected: seq<Topic>, t: Topic): (r: seq<Topic>)
    ensures t in r <==> t !in selected
    ensures forall u :: u != t ==> (u in r <==> u in selected)
    ensures NoDup(selected) ==> NoDup(r)
  {
    if t in selected then RemoveTopic(selected, t) else selected + [t]
  }

  /** Toggling the same topic twice restores every topic's membership, and
      restores the selection exactly when the topic was not selected. */
  lemma ToggleTwice(selected: seq<Topic>, t: Topic)
    ensures forall u :: u in ToggleTopic(ToggleTopic(selected, t), t) <==> u in selected
    ensures t !in selected ==> ToggleTopic(ToggleTopic(selected, t), t) == selected
  {
    if t !in selected {
      RemoveTopicSnoc(selected, t);
    }
  }

  /** The question-count effect, run once: outside the setup view nothing
      changes; in it a count above the `available` questions drops to that
      number, and a zero count with questions available becomes
      `min(5, available)`. */
  function ClampCount(inSetup: bool, available: nat, count: nat): (c: nat)
    ensures !inSetup ==> c == count
    ensures inSetup ==> c <= available
    ensures inSetup ==> (c == 0 <==> available == 0)
    ensures inSetup && count > available ==> c == available
    ensures inSetup && 0 < count <= available ==> c == count
    ensures inSetup && count == 0 && available > 0 ==> c == Min(DefaultCount, available)
  {
    if !inSetup then count
    else if count > available then available
    else if count == 0 && available > 0 then Min(DefaultCount, available)
    else count
  }

  /** The effect re-runs whenever the count it set changes; the second run
      changes nothing, so the count settles after one run. */
  lemma ClampSettles(inSetup: bool, available: nat, count: nat)
    ensures ClampCount(inSetup, available, ClampCount(inSetup, available, count))
         == ClampCount(inSetup, available, count)
  {
  }

  /** The start button is enabled unless no topic is selected, no question
      matches the selection, or the count is zero. */
  predicate CanStart(selected: seq<Topic>, available: nat, count: nat): (enabled: bool)
    ensures enabled <==> |selected| > 0 && available > 0 && count > 0
  {
    !(|selected| == 0 || available == 0 || count == 0)
  }

  /** Once the count has settled, the button is enabled exactly when some
      question matches the selection (which needs a selected topic). */
  lemma CanStartAfterClamp(selected: seq<Topic>, available: nat, count: nat)
    requires available > 0 ==> |selected| > 0
    ensures CanStart(selected, available, ClampCount(true, available, count)) <==> available > 0
  {
  }
}

=== FILE: tally.dfy ===
/** Per-topic `{ correct, total }` tallies: adding to one topic, merging two
    tallies, and the (order-independent) sum over all topics of a tally. */
module Tally {
  import opened Types

  function Plus(a: Counts, b: Counts): Counts {
    Counts(a.correct + b.correct, a.total + b.total)
  }

  /** The tally of `t` in `m`; a topic with no entry counts as zero. */
  function Lookup(m: TopicPerformance, t: Topic): Counts {
    if t in m then m[t] else Counts(0, 0)
  }

  /** Adds `c` to the entry of `t`, creating the entry at zero first when it
      is missing. */
  function Add(m: TopicPerformance, t: Topic, c: Counts): TopicPerformance {
    if t in m then m[t := Plus(m[t], c)] else m[t := c]
  }

  /** After adding, `t` has an entry holding its old tally (zero when it had
      none) plus `c`, and every other topic keeps its tally. */
  lemma AddLookup(m: TopicPerformance, t: Topic, c: Counts, u: Topic)
    ensures Add(m, t, c).Keys == m.Keys + {t}
    ensures Lookup(Add(m, t, c), u) == if u == t then Plus(Lookup(m, t), c) else Lookup(m, u)
  {
  }

  /** Adds every entry of `b` into `a`. */
  function Merge(a: TopicPerformance, b: TopicPerformance): (r: TopicPerformance)
    ensures r.Keys == a.Keys + b.Keys
    ensures forall t :: t in r ==> r[t] == Plus(Lookup(a, t), Lookup(b, t))
  {
    map t | t in a.Keys + b.Keys :: Plus(Lookup(a, t), Lookup(b, t))
  }

  /** Merging adds the two tallies of every topic, present or not. */
  lemma MergeLookup(a: TopicPerformance, b: TopicPerformance, t: Topic)
    ensures Lookup(Merge(a, b), t) == Plus(Lookup(a, t), Lookup(b, t))
  {
    if t !in a.Keys + b.Keys {
      assert t !in Merge(a, b);
    }
  }

  /** `es` lists the entries of `b`, each topic once, in some order: what
      iterating over the entries of an object yields. */
  ghost predicate ListsEntries(es: seq<(Topic, Counts)>, b: TopicPerformance) {
    && (forall k :: 0 <= k < |es| ==> es[k].0 in b && b[es[k].0] == es[k].1)
    && (forall i, j :: 0 <= i < j < |es| ==> es[i].0 != es[j].0)
    && (forall t :: t in b ==> exists k :: 0 <= k < |es| && es[k].0 == t)
  }

  /** The entries `es` added into `a` one after the other, first to last. */
  function AddEntries(a: TopicPerformance, es: seq<(Topic, Counts)>): TopicPerformance
    decreases |es|
  {
    if |es| == 0 then a
    else Add(AddEntries(a, es[..|es| - 1]), es[|es| - 1].0, es[|es| - 1].1)
  }

  /** Without its last entry, a listing of `b` lists `b` minus that topic. */
  lemma ListsEntriesInit(es: seq<(Topic, Counts)>, b: TopicPerformance)
    requires ListsEntries(es, b) && |es| > 0
    ensures ListsEntries(es[..|es| - 1], b - {es[|es| - 1].0})
  {
    var init := es[..|es| - 1];
    var t := es[|es| - 1].0;
    forall u | u in b - {t}
      ensures exists k :: 0 <= k < |init| && init[k].0 == u
    {
      var k :| 0 <= k < |es| && es[k].0 == u;
      assert init[k] == es[k];
    }
  }

  /** Adding the entries of `b` into `a` one by one, in whatever order they
      are listed, gives the merge of the two tallies. */
  lemma {:induction false} AddEntriesIsMerge(a: TopicPerformance, b: TopicPerformance, es: seq<(Topic, Counts)>)
    requires ListsEntries(es, b)
    ensures AddEntries(a, es) == Merge(a, b)
    decreases |es|
  {
    if |es| == 0 {
      assert forall t :: t !in b;
      assert b == map[];
      MergeEmpty(a);
    } else {
      var t := es[|es| - 1].0;
      ListsEntriesInit(es, b);
      AddEntriesIsMerge(a, b - {t}, es[..|es| - 1]);
      MergeTakeOut(a, b, t);
    }
  }

  /** Every topic has no more correct answers than questions. */
  ghost predicate Consistent(m: TopicPerformance) {
    forall t :: t in m ==> m[t].correct <= m[t].total
  }

  /** The sum of the tallies of all topics of `m`. */
  ghost function Sum(m: TopicPerformance): Counts
    decreases |m|
  {
    if m == map[] then Counts(0, 0)
    else
      var t :| t in m;
      Plus(m[t], Sum(m - {t}))
  }

  /** The sum does not depend on which topic is taken out first. */
  lemma {:induction false} SumRemove(m: TopicPerformance, t: Topic)
    requires t in m
    ensures Sum(m) == Plus(m[t], Sum(m - {t}))
    decreases |m|
  {
    var u :| u in m && Sum(m) == Plus(m[u], Sum(m - {u}));
    if u != t {
      var rest := m - {u} - {t};
      SumRemove(m - {u}, t);
      SumRemove(m - {t}, u);
      assert m - {t} - {u} == rest;
      calc {
        Sum(m);
        Plus(m[u], Sum(m - {u}));
        Plus(m[u], Plus(m[t], Sum(rest)));
        Plus(m[t], Plus(m[u], Sum(rest)));
        Plus(m[t], Sum(m - {t}));
      }
    }
  }

  /** Adding `c` to one topic adds `c` to the sum. */
  lemma SumAdd(m: TopicPerformance, t: Topic, c: Counts)
    ensures Sum(Add(m, t, c)) == Plus(Sum(m), c)
  {
    var r := Add(m, t, c);
    SumRemove(r, t);
    if t in m {
      SumRemove(m, t);
      assert r - {t} == m - {t};
    } else {
      assert r - {t} == m;
    }
  }

  /** Merging an empty tally changes nothing. */
  lemma MergeEmpty(a: TopicPerformance)
    ensures Merge(a, map[]) == a
  {
    var r := Merge(a, map[]);
    assert r.Keys == a.Keys;
    forall u | u in r
      ensures r[u] == a[u]
    {
    }
  }

  /** Merging `b` is merging `b` without `t`, then adding `b[t]` to `t`. */
  lemma MergeTakeOut(a: TopicPerformance, b: TopicPerformance, t: Topic)
    requires t in b
    ensures Merge(a, b) == Add(Merge(a, b - {t}), t, b[t])
  {
    var rest := b - {t};
    var m := Merge(a, rest);
    var r := Add(m, t, b[t]);
    assert r.Keys == Merge(a, b).Keys;
    forall u | u in r
      ensures r[u] == Merge(a, b)[u]
    {
      assert Lookup(b, u) == if u == t then b[t] else Lookup(rest, u);
    }
  }

  /** Merging two tallies adds their sums. */
  lemma {:induction false} SumMerge(a: TopicPerformance, b: TopicPerformance)
    ensures Sum(Merge(a, b)) == Plus(Sum(a), Sum(b))
    decreases |b|
  {
    if b == map[] {
      MergeEmpty(a);
    } else {
      var t :| t in b;
      var rest := b - {t};
      calc {
        Sum(Merge(a, b));
        { MergeTakeOut(a, b, t); }
        Sum(Add(Merge(a, rest), t, b[t]));
        { SumAdd(Merge(a, rest), t, b[t]); }
        Plus(Sum(Merge(a, rest)), b[t]);
        { SumMerge(a, rest); }
        Plus(Plus(Sum(a), Sum(rest)), b[t]);
        Plus(Sum(a), Plus(b[t], Sum(rest)));
        { SumRemove(b, t); }
        Plus(Sum(a), Sum(b));
      }
    }
  }

  /** A consistent tally sums to a consistent total. */
  lemma {:induction false} SumConsistent(m: TopicPerformance)
    requires Consistent(m)
    ensures Sum(m).correct <= Sum(m).total
    decreases |m|
  {
    if m != map[] {
      var t :| t in m;
      SumRemove(m, t);
      SumConsistent(m - {t});
    }
  }
}

=== FILE: types.dfy ===
/** The records of the practice-quiz engine (types.ts): questions, per-topic
    tallies and saved quiz results. */
module Types {

  /** A topic label. Topics are compared as plain strings. */
  type Topic = string

  /** One slot of a JavaScript array that may be a hole: `None` is a slot
      that was never written, and never equals any answer. */
  datatype Option<+T> = None | Some(value: T)

  /** `PracticeQuestion`: the correct answer is meant to be one of the options. */
  datatype Question = Question(
    question: string,
    options: seq<string>,
    correctAnswer: string,
    rationale: string,
    topic: Topic)

  /** The `{ correct, total }` tally kept for one topic. */
  datatype Counts = Counts(correct: nat, total: nat)

  /** `TopicPerformance`: a topic label mapped to its tally. */
  type TopicPerformance = map<Topic, Counts>

  /** `QuizResult`: one completed quiz as it is appended to the history.
      `date` is the opaque timestamp supplied by the caller. */
  datatype QuizResult = QuizResult(
    date: int,
    score: nat,
    totalQuestions: nat,
    percentage: real,
    topicBreakdown: TopicPerformance,
    isExamMode: bool)
}
